=== FILE: README.md ===
# BlockBasedMemoryStream in Dafny

A model of `BlockBasedMemoryStream`, a write-at-the-tail, read-at-the-head
byte stream. It stores its bytes in a linked chain of fixed-capacity blocks
(`Node`, each with a `ValueHolder` holding a read cursor `start` and a write
cursor `end`). It also keeps a bounded pool of retired blocks for reuse and a
cached length counter.

The model is functional. A `Streams.Stream` record holds:

- the block size;
- the chain as a `seq<Block>`, head first;
- the pool as a slot sequence plus the index of the top occupied slot (-1 when empty);
- the caching flag and the counter.

Every public operation is a pure function from the old state to the new one. A thrown exception becomes an `Err` value, and the caller keeps the state it had.

The abstraction is the concatenation of every block's unread bytes,
`data[start..end)`, from head to tail (`Chains.Contents`). The shape
invariant `Chains.WellFormed` says:

- there is at least one block;
- every cursor lies within its block;
- every block but the tail is full;
- only the head is partly drained.

Modules follow the program's structure:

- `Blocks`: one block and its cursor moves (Node.cs, `ValueHolder`).
- `Chains`: the chain, its contents, and the splicing done by `Write` and `SetLength`.
- `Pools`: the pool (`_pool`, `_currentPoolPos`, `_setNewHead`, `_addNodeToTail`, `_setPoolSize`).
- `Drains`: the destructive copy loop of `_read`.
- `Writes`: the copy loop of `Write`.
- `Streams`: the public surface (constructors, `Write`, `Read`, `Skip`, `ToArray`, `Length`, `SetLength`, `PoolSize`, `Clear`).
- `StreamProperties`: properties that relate several calls.
- `Links`: the chain at the level of node references and `Next` links, for the stale-link defect under "## Findings".
- `Arith`: multiplication and division facts for the block arithmetic.
- `Seqs`: regrouping and slicing facts about sequences that the chain, drain and write proofs use.

The model keeps the source's own behaviour where it departs from the
obvious design:

- `Clear` throws the pooled blocks away, because `_init` allocates a fresh pool.
- A destructive read that drains the whole chain ends in `Clear`, so the pool empties even though the drained blocks were just offered to it.
- A read that takes exactly the buffered bytes does not empty the chain when the tail is an empty block, which `SetLength` can leave behind.
- `_addNodeToTail` pops only while `_currentPoolPos > 0`, so the bottom pool slot is never reused.
- `SetLength` measures from the start of the head block's storage, not from its read cursor. It is therefore exact only on an undrained head.
- On an undrained head with an exact counter, `SetLength(Length)` throws when the tail is exactly full.
- On a partly drained head with an exact counter, `SetLength(Length)` succeeds but keeps only the first `Length - head.start` bytes, and none when `head.start >= Length`.
- `SetLength` drops the blocks it cuts off without pooling them.
- `Write` checks none of its arguments and adds `count` to the counter even when caching is off.
- `_read` tests `count > buffer.Length - offset` before `offset > buffer.Length`. With a non-negative count, the second exception can never be thrown.

## Model

| member | source | states |
|---|---|---|
| Blocks.Fresh | Node.cs:10-20 | A new block has capacity `blockSize`, both cursors at 0 and no unread bytes |
| Blocks.Rewind | BlockBasedMemoryStream.cs:300-302 | A retired block keeps its storage and gets both cursors reset to 0 |
| Blocks.Append | BlockBasedMemoryStream.cs:178-187 | Copying at the write cursor advances `end` by the bytes copied and appends exactly them to the block's unread bytes; `start` and capacity are unchanged |
| Blocks.Consume | BlockBasedMemoryStream.cs:269 | Advancing the read cursor by `k` drops exactly the first `k` unread bytes |
| Blocks.Truncate | BlockBasedMemoryStream.cs:386-392 | Moving `end` back to `e` clamps `start` to `e`, and the unread bytes become a prefix of the old ones |
| Chains.TotalSizeBounds | BlockBasedMemoryStream.cs:346-351 | The length walk over a well-formed chain returns between 0 and the chain's capacity, `blocks * blockSize` |
| Chains.Contents | BlockBasedMemoryStream.cs:346-351 | The chain's bytes number exactly the sum of `end - start` that the length walk computes |
| Chains.PhysicalExtent | BlockBasedMemoryStream.cs:364-380 | On a well-formed chain, the available bytes plus the head's read cursor equal `(blocks - 1) * blockSize + tail.end`, the extent the `SetLength` walk measures |
| Chains.FillTail | BlockBasedMemoryStream.cs:169-187 | Copying into the tail without a new block keeps the chain well formed, appends the bytes to the contents and leaves every other block as it was |
| Chains.LinkTail | BlockBasedMemoryStream.cs:321-322 | Linking a rewound block behind a full tail keeps the chain well formed and the contents unchanged, and the block becomes the tail |
| Chains.FillAndLink | BlockBasedMemoryStream.cs:169-190 | A round that fills the tail and links a new block appends the bytes, adds exactly one empty tail and keeps the older blocks |
| Chains.Landing | BlockBasedMemoryStream.cs:364-384 | The walk of `L / blockSize` hops stays on the chain and lands on a block whose `end` is at least `L % blockSize` if and only if `L <= available + head.start` and `L` is not the end of a full tail |
| Chains.Cut | BlockBasedMemoryStream.cs:386-395 | Setting the landed block's `end` and cutting its successors keeps the chain well formed and keeps exactly the first `hops * blockSize + newEnd - head.start` bytes |
| Chains.Peek | BlockBasedMemoryStream.cs:255-279 | The non-destructive copy loop returns exactly the first `min(need, available)` bytes of the contents |
| Chains.ResumedIsWellFormed | BlockBasedMemoryStream.cs:269-273 | Dropping emptied heads and advancing the new head's read cursor keeps the chain well formed |
| Pools.Empty | BlockBasedMemoryStream.cs:337-338 | A new pool has `poolSize` empty slots and holds nothing |
| Pools.Retire | BlockBasedMemoryStream.cs:298-305 | Retiring a block adds one to the occupancy while a slot is free, otherwise leaves the pool unchanged; capacity is kept and the occupancy never exceeds it |
| Pools.RetirePushes | BlockBasedMemoryStream.cs:300-303 | A block retired into a free slot goes on top of the pooled stack with its cursors reset |
| Pools.Acquire | BlockBasedMemoryStream.cs:308-320 | Obtaining a block for a new tail yields a rewound block; with at most one block pooled it allocates and leaves the pool unchanged, otherwise it takes one |
| Pools.AcquirePops | BlockBasedMemoryStream.cs:311-316 | With more than one block pooled, the block obtained is the top of the stack and the rest of the stack is kept |
| Pools.RetireAll | BlockBasedMemoryStream.cs:271-274 | Retiring the emptied heads one after another raises the occupancy by their number, capped at the capacity |
| Pools.TakeOccupancy | BlockBasedMemoryStream.cs:311-316 | `k` acquisitions lower the occupancy by `k` but never below one, and leave the occupancy of a pool holding at most one block unchanged |
| Pools.Resize | BlockBasedMemoryStream.cs:399-415 | Resizing gives a pool of the new capacity whose stack is the old stack cut to the new size, slot for slot |
| Drains.Drain | BlockBasedMemoryStream.cs:255-279 | The destructive copy loop returns `min(need, available)` bytes which, followed by the remaining chain's contents, give back the old contents. The remaining chain is the old one with emptied heads dropped: its head still holds bytes or is the old block the loop never reached. It is empty exactly when the read wants every buffered byte and reaches into the tail |
| Drains.DrainHead | BlockBasedMemoryStream.cs:257-277 | One round of the loop on a non-empty chain satisfies the same contract as the whole loop |
| Writes.Grow | BlockBasedMemoryStream.cs:165-191 | The write loop appends exactly the source bytes. It keeps the chain well formed and every block before the tail unchanged, and the pool it leaves is the old pool after one acquisition per linked block |
| Writes.GrowLinked | BlockBasedMemoryStream.cs:169-190 | A write whose bytes do not fit into the tail satisfies the same contract as the whole loop |
| Writes.GrowCounts | BlockBasedMemoryStream.cs:167-190 | The number of blocks the write links is `NewBlocks(space in tail, count)`: none if the bytes fit, else one per further `blockSize` bytes |
| Writes.LinkedCounts | BlockBasedMemoryStream.cs:169-190 | For a write whose bytes do not fit into the tail, the number of blocks linked is the same `NewBlocks(space in tail, count)`: the one linked now plus those the rest needs |
| Writes.LinkRound | BlockBasedMemoryStream.cs:169-190 | A round that does not fit fills the tail and links one empty block: the chain grows by one, the bytes left shrink by the tail's free space, and the whole write ends as long as the write of those bytes behind the new block |
| Writes.NewBlocksFewest | BlockBasedMemoryStream.cs:169-176 | `NewBlocks` is the least number of fresh blocks that, after the tail's free space, hold the bytes |
| Streams.Init | BlockBasedMemoryStream.cs:327-339 | A new stream holds no bytes in one block with both cursors at 0, has counter 0, the given block size, caching flag and pool capacity, and an empty pool |
| Streams.New | BlockBasedMemoryStream.cs:70-73 | The constructor without a block size uses 65535-byte blocks, the given caching flag and pool capacity, an empty pool and counter 0, and holds no bytes in one block with both cursors at 0 |
| Streams.Clear | BlockBasedMemoryStream.cs:199-202 | `Clear` leaves one block with both cursors at 0 and an empty pool, keeping block size, caching flag and pool capacity |
| Streams.Length | BlockBasedMemoryStream.cs:341-360 | `Length` is at least the available bytes. With caching on it is the counter; with caching off it is exactly the available bytes and repairs the counter. The counter is overwritten with the answer, and a consistent stream is left as it was |
| Streams.Write | BlockBasedMemoryStream.cs:163-194 | `Write` appends exactly `buffer[offset..offset+count)`; a zero count, with any offset, leaves the stream as it was. It adds `count` to the counter, keeps a consistent counter consistent, keeps the blocks before the tail and the head's read cursor, and keeps the pool capacity |
| Streams.WriteLinksFewest | BlockBasedMemoryStream.cs:167-190 | A write links the fewest blocks that hold the bytes after the tail's free space, and takes each one from the pool while more than one block is pooled |
| Streams.ReadCore | BlockBasedMemoryStream.cs:242-294 | `_read` throws exactly when `count > buffer.Length - offset` or `offset > buffer.Length`, naming the first failed check. Otherwise it copies the first `min(count, available)` bytes into `buffer[offset..]` and leaves the rest of the buffer alone. A destructive read removes those bytes; a peek, a zero count or an empty buffer leaves the stream as it was. A chain drained to nothing ends in `Clear`; otherwise the remaining chain is the old one with every emptied head dropped and the new head's read cursor advanced |
| Streams.Remove | BlockBasedMemoryStream.cs:255-292 | The destructive loop and its epilogue remove exactly the first `min(count, available)` bytes. They end in `Clear` when the chain drains to nothing, and otherwise leave the old chain with every emptied head dropped and the new head's read cursor advanced, lower the counter by the bytes read and pool the dropped heads |
| Streams.Keep | BlockBasedMemoryStream.cs:282-291 | After a drain that leaves blocks and has dropped every emptied head, the stream holds exactly the remaining chain, which resumes the old one, the counter drops by the bytes read, the occupancy rises by the dropped heads up to the capacity, and a consistent counter stays consistent |
| Streams.Read | BlockBasedMemoryStream.cs:121-124 | `Read` copies the first `min(count, available)` bytes to `buffer[offset..]` and removes them. It resets the stream when it drains the chain and otherwise resumes the old chain past every emptied head and keeps configuration and pool capacity |
| Streams.Skip | BlockBasedMemoryStream.cs:237-240 | `Skip(n)` removes exactly the first `min(n, available)` bytes. It leaves the stream as it was for `n == 0` and ends in `Clear` when it drains the chain; otherwise it keeps configuration and pool capacity, lowers the counter by the bytes skipped, resumes the old chain past every emptied head and pools those heads |
| Streams.ReadAll | BlockBasedMemoryStream.cs:228-229 | A `_read` of at least the buffered bytes into a zeroed buffer puts the contents at its front with zeros behind. A peek or a zero length leaves the stream as it was. A removing read leaves it empty: `Clear` when the chain drains, and otherwise the old configuration and pool capacity, the counter lowered by the bytes read and the chain resumed past every emptied head |
| Streams.ToArray | BlockBasedMemoryStream.cs:226-231 | `ToArray` returns `Length` bytes: the contents followed by zeros for any counter excess. Without removal the stream is only measured. With removal it is left empty: only measured when `Length` is 0, `Clear` when the read drains the chain, and otherwise the measured stream with the counter lowered by the bytes read, the chain resumed past every emptied head, those heads pooled and the configuration kept |
| Streams.SetLength | BlockBasedMemoryStream.cs:362-397 | `SetLength(L)` succeeds exactly when `L <= available + head.start` and `L` is not the end of a full tail, else throws. On success it keeps the first `L - head.start` bytes, sets the counter to `L`, keeps `L / blockSize + 1` blocks and sets the tail's `end` to `L % blockSize` |
| Streams.PoolSize | BlockBasedMemoryStream.cs:57-60 | The `PoolSize` getter reports the slot count: never negative and never below the number of pooled blocks |
| Streams.SetPoolSize | BlockBasedMemoryStream.cs:399-415 | Setting `PoolSize` changes only the pool: its capacity becomes the new size and its stack is cut to it |
| StreamProperties.LengthAfterWritingSixtyFour | BlockBasedMemoryStream.Tests/BlockBasedMemoryStreamTests.cs:17-30 | With caching on and a pool of 8, writing 64 bytes gives `Length == 64`, exactly those bytes, in one block |
| StreamProperties.WriteThenReadAll | BlockBasedMemoryStream.cs:163-194 | Writing bytes and then reading everything returns the old contents followed by those bytes and leaves the stream empty |
| StreamProperties.WritesConcatenate | BlockBasedMemoryStream.cs:163-194 | Two writes leave the same contents and counter as one write of the concatenated bytes |
| StreamProperties.PeekMatchesRead | BlockBasedMemoryStream.cs:267-275 | A non-destructive `_read` copies what a destructive one would and leaves the stream unchanged |
| StreamProperties.ToArrayThenRead | BlockBasedMemoryStream.cs:216-231 | After `ToArray(false)`, a read returns what it would have returned before |
| StreamProperties.ReadFront | BlockBasedMemoryStream.cs:248-279 | A read at offset 0 puts the first `min(count, available)` bytes at the front of the buffer |
| StreamProperties.SetLengthUndrained | BlockBasedMemoryStream.cs:362-397 | With an undrained head, `SetLength(L)` succeeds if and only if `L < available`, or `L == available` with the tail not full. It then keeps exactly the first `L` bytes with an exact counter |
| StreamProperties.SetLengthToLengthRejectedOnFullTail | BlockBasedMemoryStream.cs:369-377 | On a consistent stream with an undrained head and a full tail, `SetLength(Length)` throws |
| StreamProperties.SetLengthToLengthOnDrainedHead | BlockBasedMemoryStream.cs:364-396 | On a consistent stream with a partly drained head, `SetLength(Length)` succeeds and keeps only the first `Length - head.start` bytes |
| StreamProperties.SetLengthCounterSkew | BlockBasedMemoryStream.cs:396 | `SetLength(L)` with `L <= available + head.start` that is not the end of a full tail succeeds, and afterwards the counter exceeds the bytes held by `min(head.start, L)` |
| StreamProperties.DrainingEverythingEmptiesPool | BlockBasedMemoryStream.cs:282-287 | A read of every byte of a stream whose tail holds data leaves an empty pool of the same capacity |
| StreamProperties.BottomSlotKept | BlockBasedMemoryStream.cs:311 | A write into a stream whose pool holds one block keeps that block pooled |
| StreamProperties.ClearIdempotent | BlockBasedMemoryStream.cs:199-202 | Clearing twice is clearing once |
| StreamProperties.LengthStable | BlockBasedMemoryStream.cs:341-360 | Asking for the length twice gives the same answer and state |

| Links.SetNewHead | BlockBasedMemoryStream.cs:296-306 | Retiring the head pushes it while a slot is free, moves the head to its successor and touches no `Next` link |
| Links.AddNodeToTail | BlockBasedMemoryStream.cs:308-325 | As written: the tail links to the popped node (or to a new one when at most one is pooled), which becomes the tail and keeps the `Next` it had when retired |
| Links.AddNodeToTailFixed | BlockBasedMemoryStream.cs:308-325 | Corrected: the linked node becomes the tail with a null `Next` |
| Links.FixedKeepsList | BlockBasedMemoryStream.cs:308-325 | With the corrected linking, a null-terminated chain ending at the tail, with a pool disjoint from it, stays null-terminated with the new tail appended |
| Links.ReadRetiresTwoHeads | BlockBasedMemoryStream.cs:271-274 | Reading two full blocks out of a three-block chain pools both, and the top one still links to the new head |
| Links.StaleNextClosesCycle | BlockBasedMemoryStream.cs:311-322 | A write that then pops that node links it behind the head, and its stale link points back to the head: the chain is a cycle |
| Links.FixedLinkEndsList | BlockBasedMemoryStream.cs:311-322 | The same write with the corrected linking leaves a two-node null-terminated chain |

## Left out

- Unmanaged memory: `Marshal.AllocHGlobal`, `FreeHGlobal`, the finalizer and the `unsafe` copies. Block storage is a byte sequence and copies are slice updates. Fresh storage is modelled as zeros, because the source leaves it uninitialised and no operation reads outside `[start, end)`.
- Object identity and `Next` links in the stream model: a pooled node keeps its stale `Next`. A pop happens only with two or more nodes pooled, and the top one was retired while linking to the head that followed it, so reusing it usually closes a cycle through the chain. After that, `Length` with caching off never terminates, and neither does a read asking for more than the buffered bytes: its loop keeps going round the cycle and never meets a null `Next`. A read of at most the buffered bytes stops once it has copied them and returns, but it leaves nodes that are pooled and still linked into the chain. A chain held as a sequence cannot represent this, so the stream model links every reused block with no successor, as the corrected `Links.AddNodeToTailFixed` does. The defect itself is modelled in `Links` and listed under "## Findings".
- `CopyTo`, because it writes into a foreign `Stream`.
- `Flush`, `CanRead`, `CanSeek` and `CanWrite`, and the `NotSupportedException` stubs of `Position` and `Seek`: they carry no state.
- The `BufferSize` and `BlockSize` getters and the `UseLengthCaching` setter: they are plain field accessors.
- `Dispose`: it calls `Clear`, then nulls `_head` and `_tail` and switches caching off. Afterwards `Length` returns 0 and `ToArray` an empty array; a `Read` with a positive count finds `_head` null, calls `Clear` and so brings the stream back; `Write` and `SetLength` dereference the null tail or head. The model has no null chain to represent this state.
- BlockBasedMemoryStream/Node.cs: it declares the same record as Node.cs, and the block is modelled once.
- Streams.Init: requires a positive block size. The source accepts any value, but with a block size of 0 `Write` loops forever, and a negative one makes the allocation throw.
- Streams.Write: requires `count >= 0` and, for a positive count, `0 <= offset` and `offset + count <= buffer.Length`. The source checks none of them. A zero count never indexes `buffer`, so every offset is accepted then. With a negative count the copy loop never runs and the counter drops by `|count|`. With a positive count and `offset` outside the buffer, the first round throws `IndexOutOfRangeException` before writing anything. With `offset` inside the buffer but `offset + count` past its end, the copy reads past the array's end or throws in a later round. The bytes of the earlier rounds then stay in the chain, but the counter is not raised, because `count` is added only after the loop (BlockBasedMemoryStream.cs:193). A negative count and a part-way throw both leave the counter below the bytes held, which breaks `Valid`, so the model excludes these calls.
- Streams.ReadCore: requires non-negative `offset` and `count`. Negative arguments and `int`/`long` overflow are not modelled, and every integer is unbounded.
- Streams.SetLength: requires a non-negative length.
- Streams.Remove: the drained heads are offered to the pool after the copy rather than one by one during it. The result is the same, because the pool and the chain do not share state.

## Findings

| source | as written | input that shows it | evidently intended | confidence | as-written member | corrected member |
|---|---|---|---|---|---|---|
| BlockBasedMemoryStream.cs:311-322 | `_addNodeToTail` links a popped pool node without clearing its `Next`, which `_setNewHead` (cs:296-306) left pointing at the following head | block size 8, pool size 8: write 24 bytes, read 16, write 1; the popped node links back to the head, so the chain is a cycle | the new tail has a null `Next`, so the chain stays a null-terminated list | not executed | Links.AddNodeToTail, Links.StaleNextClosesCycle | Links.AddNodeToTailFixed, Links.FixedKeepsList |

=== FILE: arith.dfy ===
/** Facts about multiplication, division and remainder that the block
    arithmetic of `Write` and `SetLength` rests on. */
module Arith {

  lemma MulSucc(a: int, m: int)
    ensures a * m + m == (a + 1) * m
  {
  }

  lemma MulMonotone(a: int, b: int, m: int)
    requires a <= b && m >= 0
    ensures a * m <= b * m
  {
    assert b * m - a * m == (b - a) * m;
  }

  lemma Split(x: int, m: int)
    requires x >= 0 && m > 0
    ensures x == (x / m) * m + x % m && 0 <= x / m && 0 <= x % m < m
  {
  }
}

=== FILE: blocks.dfy ===
/** The unit of storage of the stream: a fixed-capacity region with a read
    cursor `start` and a write cursor `end` (the Node and ValueHolder types).
    The bytes in [start, end) are the block's unread data; the rest of the
    region is stale. */
module Blocks {

  /** An unsigned 8-bit value. */
  newtype byte = b: int | 0 <= b < 256

  function Min(a: int, b: int): int { if a <= b then a else b }

  function Max(a: int, b: int): int { if a >= b then a else b }

  /** A freshly allocated managed byte array of length `n`. */
  function Zeros(n: nat): (r: seq<byte>)
    ensures |r| == n
  {
    seq(n, _ => 0)
  }

  /** `buffer` with `bytes` copied in at `offset`, the rest left as it was. */
  function Splice(buffer: seq<byte>, offset: int, bytes: seq<byte>): (r: seq<byte>)
    requires 0 <= offset && offset + |bytes| <= |buffer|
    ensures |r| == |buffer|
    ensures r[..offset] == buffer[..offset]
    ensures r[offset..offset + |bytes|] == bytes
    ensures r[offset + |bytes|..] == buffer[offset + |bytes|..]
  {
    buffer[..offset] + bytes + buffer[offset + |bytes|..]
  }

  /** The storage region (its length is the capacity) and the two cursors. */
  datatype Block = Block(data: seq<byte>, start: int, end: int)

  /** The cursor invariant 0 <= start <= end <= capacity. */
  predicate Cursors(b: Block) {
    0 <= b.start <= b.end <= |b.data|
  }

  predicate Valid(b: Block, blockSize: int) {
    |b.data| == blockSize && Cursors(b)
  }

  /** A block as the pool keeps it: both cursors rewound to 0. */
  predicate Rewound(b: Block, blockSize: int) {
    Valid(b, blockSize) && b.start == 0 && b.end == 0
  }

  /** Number of unread bytes of the block. */
  function Size(b: Block): int {
    b.end - b.start
  }

  /** The unread bytes of the block. */
  function Live(b: Block): (r: seq<byte>)
    requires Cursors(b)
    ensures |r| == Size(b)
  {
    b.data[b.start..b.end]
  }

  /** A newly allocated block (Node.cs:10-20). Its storage is uninitialised
      memory in the source; zeros stand in for it, and no operation ever
      observes a byte outside [start, end). */
  function Fresh(blockSize: nat): (r: Block)
    ensures Rewound(r, blockSize)
    ensures Live(r) == []
  {
    Block(Zeros(blockSize), 0, 0)
  }

  /** The block with both cursors reset, as it is put into the pool. */
  function Rewind(b: Block): (r: Block)
    ensures Rewound(r, |b.data|)
    ensures r.data == b.data
  {
    b.(start := 0, end := 0)
  }

  /** Copies `src` to the write cursor and advances it. */
  function Append(b: Block, src: seq<byte>): (r: Block)
    requires Cursors(b) && b.end + |src| <= |b.data|
    ensures Cursors(r) && |r.data| == |b.data|
    ensures r.start == b.start && r.end == b.end + |src|
    ensures Live(r) == Live(b) + src
  {
    var r := Block(b.data[..b.end] + src + b.data[b.end + |src|..], b.start, b.end + |src|);
    assert r.data[b.start..b.end] == b.data[b.start..b.end];
    assert r.data[b.end..b.end + |src|] == src;
    assert r.data[b.start..r.end] == r.data[b.start..b.end] + r.data[b.end..r.end];
    r
  }

  /** Advances the read cursor past `k` unread bytes. */
  function Consume(b: Block, k: int): (r: Block)
    requires Cursors(b) && 0 <= k <= Size(b)
    ensures Cursors(r) && r.data == b.data && r.end == b.end
    ensures r.start == b.start + k
    ensures Live(r) == Live(b)[k..]
  {
    b.(start := b.start + k)
  }

  /** Moves the write cursor back to `e`, dragging the read cursor along when
      it would otherwise lie beyond the write cursor. */
  function Truncate(b: Block, e: int): (r: Block)
    requires Cursors(b) && 0 <= e <= b.end
    ensures Cursors(r) && r.data == b.data && r.end == e
    ensures r.start == Min(b.start, e)
    ensures Live(r) == Live(b)[..Max(0, e - b.start)]
  {
    var r := b.(end := e, start := if b.start > e then e else b.start);
    assert b.start <= e ==> r.data[r.start..r.end] == b.data[b.start..b.end][..e - b.start];
    r
  }
}

=== FILE: chains.dfy ===
/** The chain of blocks from head (oldest data, drained first) to tail
    (current write target), as a sequence. Its abstract contents are the
    unread bytes of every block, concatenated from head to tail. */
module Chains {
  import opened Blocks
  import opened Arith
  import Seqs

  predicate AllCursors(c: seq<Block>) {
    forall i :: 0 <= i < |c| ==> Cursors(c[i])
  }

  /** Sum of `end - start` over the chain: the walk of `_getLength`. */
  function TotalSize(c: seq<Block>): int
  {
    if |c| == 0 then 0 else Size(c[0]) + TotalSize(c[1..])
  }

  /** The bytes the chain holds, in the order a read returns them. */
  function Contents(c: seq<Block>): (r: seq<byte>)
    requires AllCursors(c)
    ensures |r| == TotalSize(c)
  {
    if |c| == 0 then [] else Live(c[0]) + Contents(c[1..])
  }

  function Tail(c: seq<Block>): Block
    requires |c| > 0
  {
    c[|c| - 1]
  }

  /** The shape every reachable chain has: at least one block, every cursor
      within the block, every block but the tail full, and only the head
      partly drained. */
  predicate WellFormed(c: seq<Block>, blockSize: int) {
    && |c| >= 1
    && (forall i :: 0 <= i < |c| ==> Valid(c[i], blockSize))
    && (forall i :: 0 <= i < |c| - 1 ==> c[i].end == blockSize)
    && (forall i :: 0 < i < |c| ==> c[i].start == 0)
  }

  /** The cursor and capacity facts a well-formed chain holds block by block. */
  lemma WellFormedParts(c: seq<Block>, blockSize: int)
    requires WellFormed(c, blockSize)
    ensures AllCursors(c) && forall i :: 0 <= i < |c| ==> |c[i].data| == blockSize
  {
  }

  /** A chain of one block holds that block's unread bytes. */
  lemma Single(b: Block)
    requires Cursors(b)
    ensures AllCursors([b]) && TotalSize([b]) == Size(b) && Contents([b]) == Live(b)
  {
    assert [b][1..] == [];
  }

  /** The tail's unread bytes are among the chain's. */
  lemma {:induction false} TailWithin(c: seq<Block>)
    requires AllCursors(c) && |c| > 0
    ensures Size(Tail(c)) <= TotalSize(c)
    decreases |c|
  {
    if |c| > 1 {
      TailWithin(c[1..]);
      assert Tail(c[1..]) == Tail(c);
    }
  }

  /** Dropping one more leading block keeps the `Resumes` relation. */
  lemma ResumesBehind(before: seq<Block>, after: seq<Block>)
    requires 1 <= |before| && |after| <= |before| - 1
    ensures 0 < |after| && Resumes(before[1..], after) ==> Resumes(before, after)
  {
    if 0 < |after| {
      var j := |before| - |after|;
      assert before[1..][j..] == before[j + 1..];
    }
  }

  lemma {:induction false} ContentsSnoc(c: seq<Block>, b: Block)
    requires AllCursors(c) && Cursors(b)
    ensures AllCursors(c + [b])
    ensures Contents(c + [b]) == Contents(c) + Live(b)
    decreases |c|
  {
    if |c| == 0 {
      assert c + [b] == [b];
      assert [b][1..] == [];
    } else {
      var cb := c + [b];
      assert cb[0] == c[0] && cb[1..] == c[1..] + [b];
      ContentsSnoc(c[1..], b);
      assert AllCursors(cb);
      Seqs.Regroup(Live(c[0]), Contents(c[1..]), Live(b));
    }
  }

  lemma {:induction false} ContentsSplit(c: seq<Block>, h: int)
    requires AllCursors(c) && 0 <= h <= |c|
    ensures Contents(c) == Contents(c[..h]) + Contents(c[h..])
    decreases h
  {
    if h == 0 {
      assert c[..0] == [];
      assert c[0..] == c;
    } else {
      ContentsSplit(c[1..], h - 1);
      assert c[..h][0] == c[0];
      assert c[..h][1..] == c[1..][..h - 1];
      assert c[1..][h - 1..] == c[h..];
    }
  }

  /** With every block before index `h` full and only the head drained, the
      first `h` blocks hold `h * blockSize - head.start` bytes. */
  lemma {:induction false} FullPrefix(c: seq<Block>, blockSize: int, h: int)
    requires WellFormed(c, blockSize)
    requires 1 <= h < |c|
    ensures TotalSize(c[..h]) == h * blockSize - c[0].start
    decreases h
  {
    if h == 1 {
      assert c[..1] == [c[0]];
      assert [c[0]][1..] == [];
    } else {
      FullPrefix(c, blockSize, h - 1);
      assert c[..h] == c[..h - 1] + [c[h - 1]];
      ContentsSnoc(c[..h - 1], c[h - 1]);
      assert (h - 1) * blockSize + blockSize == h * blockSize;
    }
  }

  /** The physical extent of a well-formed chain, measured from the start
      of the head block's storage, is `Available + head.start`. */
  lemma PhysicalExtent(c: seq<Block>, blockSize: int)
    requires WellFormed(c, blockSize)
    ensures TotalSize(c) + c[0].start == (|c| - 1) * blockSize + Tail(c).end
  {
    if |c| == 1 {
      assert c == [c[0]];
      assert [c[0]][1..] == [];
    } else {
      FullPrefix(c, blockSize, |c| - 1);
      assert c == c[..|c| - 1] + [Tail(c)];
      ContentsSnoc(c[..|c| - 1], Tail(c));
    }
  }

  /** The walk of `_getLength` on a well-formed chain returns at least 0
      and at most the chain's capacity, `blocks * blockSize`. */
  lemma TotalSizeBounds(c: seq<Block>, blockSize: int)
    requires WellFormed(c, blockSize)
    ensures 0 <= TotalSize(c) <= |c| * blockSize
  {
    PhysicalExtent(c, blockSize);
    MulSucc(|c| - 1, blockSize);
    assert |Contents(c)| == TotalSize(c);
  }

  /** Copies `src` into the tail at its write cursor (one round of the
      copy in `Write`). */
  function FillTail(c: seq<Block>, blockSize: int, src: seq<byte>): (r: seq<Block>)
    requires WellFormed(c, blockSize)
    requires Tail(c).end + |src| <= blockSize
    ensures WellFormed(r, blockSize)
    ensures Contents(r) == Contents(c) + src
    ensures |r| == |c| && r[..|c| - 1] == c[..|c| - 1]
    ensures Tail(r).end == Tail(c).end + |src|
    ensures r[0].start == c[0].start
  {
    var front := c[..|c| - 1];
    var r := front + [Append(Tail(c), src)];
    assert c == front + [Tail(c)];
    ContentsSnoc(front, Tail(c));
    ContentsSnoc(front, Append(Tail(c), src));
    assert r[..|c| - 1] == front;
    r
  }

  /** Links a rewound block after the full tail and makes it the new tail
      (`_addNodeToTail`, after the block has been obtained). */
  function LinkTail(c: seq<Block>, blockSize: int, b: Block): (r: seq<Block>)
    requires WellFormed(c, blockSize)
    requires Tail(c).end == blockSize && Rewound(b, blockSize)
    ensures WellFormed(r, blockSize)
    ensures Contents(r) == Contents(c)
    ensures |r| == |c| + 1 && r[..|c|] == c && Tail(r) == b
  {
    ContentsSnoc(c, b);
    assert (c + [b])[..|c|] == c;
    c + [b]
  }

  /** Fills the tail up to `blockSize` with `src` and links `b` after it:
      one round of `Write` that needs a new block. */
  function FillAndLink(c: seq<Block>, blockSize: int, src: seq<byte>, b: Block): (r: seq<Block>)
    requires WellFormed(c, blockSize)
    requires Tail(c).end + |src| == blockSize && Rewound(b, blockSize)
    ensures WellFormed(r, blockSize)
    ensures Contents(r) == Contents(c) + src
    ensures |r| == |c| + 1 && r[..|c| - 1] == c[..|c| - 1] && r[0].start == c[0].start
    ensures Tail(r).end == 0
  {
    var filled := FillTail(c, blockSize, src);
    var r := LinkTail(filled, blockSize, b);
    assert r[..|c|] == filled;
    assert r[..|c| - 1] == filled[..|c| - 1];
    r
  }

  /** The surgery of `SetLength`: the block `hops` steps from the head gets
      write cursor `newEnd` and becomes the tail; its successors are cut. */
  function Cut(c: seq<Block>, blockSize: int, hops: int, newEnd: int): (r: seq<Block>)
    requires WellFormed(c, blockSize)
    requires 0 <= hops < |c| && 0 <= newEnd <= c[hops].end
    ensures WellFormed(r, blockSize)
    ensures |r| == hops + 1 && r[..hops] == c[..hops] && Tail(r).end == newEnd
    ensures hops * blockSize + newEnd - c[0].start <= TotalSize(c)
    ensures Contents(r) == Contents(c)[..Max(0, hops * blockSize + newEnd - c[0].start)]
  {
    var r := c[..hops] + [Truncate(c[hops], newEnd)];
    assert r[..hops] == c[..hops];
    CutContents(c, blockSize, hops, newEnd);
    r
  }

  lemma CutContents(c: seq<Block>, blockSize: int, hops: int, newEnd: int)
    requires WellFormed(c, blockSize)
    requires 0 <= hops < |c| && 0 <= newEnd <= c[hops].end
    ensures AllCursors(c[..hops] + [Truncate(c[hops], newEnd)])
    ensures hops * blockSize + newEnd - c[0].start <= TotalSize(c)
    ensures Contents(c[..hops] + [Truncate(c[hops], newEnd)])
         == Contents(c)[..Max(0, hops * blockSize + newEnd - c[0].start)]
  {
    CutOffset(c, blockSize, hops, newEnd);
    TruncateAt(c, hops, newEnd);
  }

  /** Cutting the chain after block `h`, with that block's write cursor
      moved back to `e`, keeps a prefix of the contents. */
  lemma TruncateAt(c: seq<Block>, h: int, e: int)
    requires AllCursors(c)
    requires 0 <= h < |c| && 0 <= e <= c[h].end
    ensures AllCursors(c[..h] + [Truncate(c[h], e)])
    ensures |Contents(c[..h])| + Max(0, e - c[h].start) <= |Contents(c)|
    ensures Contents(c[..h] + [Truncate(c[h], e)])
         == Contents(c)[..|Contents(c[..h])| + Max(0, e - c[h].start)]
  {
    var front := c[..h];
    var keep := Max(0, e - c[h].start);
    ContentsSnoc(front, Truncate(c[h], e));
    assert Contents(c) == Contents(front) + Live(c[h]) + Contents(c[h + 1..]) by {
      ContentsSplit(c, h);
      UnfoldAt(c, h);
    }
    Seqs.PrefixThrough(Contents(front), Live(c[h]), Contents(c[h + 1..]), keep);
    assert Contents(front + [Truncate(c[h], e)]) == Contents(front) + Live(c[h])[..keep];
  }

  /** Where `SetLength` cuts, in bytes of contents: the physical offset
      `hops * blockSize + newEnd` less the head's read cursor. */
  lemma CutOffset(c: seq<Block>, blockSize: int, hops: int, newEnd: int)
    requires WellFormed(c, blockSize)
    requires 0 <= hops < |c| && 0 <= newEnd <= c[hops].end
    ensures Max(0, hops * blockSize + newEnd - c[0].start)
         == TotalSize(c[..hops]) + Max(0, newEnd - c[hops].start)
  {
    if hops == 0 {
      assert c[..hops] == [];
    } else {
      FullPrefix(c, blockSize, hops);
    }
  }

  lemma UnfoldAt(c: seq<Block>, h: int)
    requires AllCursors(c) && 0 <= h < |c|
    ensures Contents(c[h..]) == Live(c[h]) + Contents(c[h + 1..])
  {
    assert c[h..][0] == c[h];
    assert c[h..][1..] == c[h + 1..];
  }

  /** The bytes a non-destructive read of `need` bytes copies out, block by
      block from the head (the loop of `_read` with `removeReadData` false). */
  function Peek(c: seq<Block>, need: int): (r: seq<byte>)
    requires AllCursors(c) && need >= 0
    ensures r == Contents(c)[..Min(need, |Contents(c)|)]
    decreases |c|
  {
    if need == 0 || |c| == 0 then []
    else
      var k := Min(Size(c[0]), need);
      var rest := Peek(c[1..], need - k);
      assert Contents(c) == Live(c[0]) + Contents(c[1..]);
      Live(c[0])[..k] + rest
  }

  /** `after` is what remains of `before` once a drain has removed some
      leading blocks and advanced the read cursor of the new head. */
  predicate Resumes(before: seq<Block>, after: seq<Block>)
    requires 0 < |after| <= |before|
  {
    var j := |before| - |after|;
    && after[1..] == before[j + 1..]
    && after[0].data == before[j].data
    && after[0].end == before[j].end
    && before[j].start <= after[0].start
  }

  lemma ResumedIsWellFormed(before: seq<Block>, after: seq<Block>, blockSize: int)
    requires WellFormed(before, blockSize)
    requires 0 < |after| <= |before| && Resumes(before, after)
    requires Cursors(after[0])
    ensures WellFormed(after, blockSize)
  {
    var j := |before| - |after|;
    forall i | 0 < i < |after|
      ensures after[i] == before[j + i]
    {
      assert after[i] == after[1..][i - 1];
    }
  }

  /** The arithmetic behind `LandingAt`, on a chain of `n` blocks whose
      tail holds `t` bytes. */
  lemma ExtentArith(n: int, blockSize: int, h: int, e: int, t: int)
    requires n >= 1 && blockSize > 0 && 0 <= h && 0 <= e < blockSize && 0 <= t <= blockSize
    ensures h < n - 1 ==> h * blockSize + e < (n - 1) * blockSize
    ensures h == n - 1 ==> h * blockSize + e < n * blockSize
    ensures h >= n ==> n * blockSize <= h * blockSize + e
    ensures n * blockSize == (n - 1) * blockSize + blockSize
  {
    if h < n - 1 {
      MulMonotone(h + 1, n - 1, blockSize);
    } else if h >= n {
      MulMonotone(n, h, blockSize);
    }
  }

  /** The walk of `SetLength` to `offset / blockSize` hops lands on a block
      whose write cursor is at least `offset % blockSize` exactly when the
      offset lies within the chain's physical extent and is not the end of
      a full tail. */
  lemma Landing(c: seq<Block>, blockSize: int, offset: int)
    requires WellFormed(c, blockSize) && blockSize > 0 && offset >= 0
    ensures (offset / blockSize < |c| && offset % blockSize <= c[offset / blockSize].end)
        <==> (offset <= TotalSize(c) + c[0].start && offset != |c| * blockSize)
  {
    var h := offset / blockSize;
    var e := offset % blockSize;
    Split(offset, blockSize);
    LandingAt(c, blockSize, h, e);
  }

  /** `Landing` with the quotient and remainder named. */
  lemma LandingAt(c: seq<Block>, blockSize: int, h: int, e: int)
    requires WellFormed(c, blockSize) && blockSize > 0
    requires 0 <= h && 0 <= e < blockSize
    ensures (h < |c| && e <= c[h].end)
        <==> (h * blockSize + e <= TotalSize(c) + c[0].start && h * blockSize + e != |c| * blockSize)
  {
    PhysicalExtent(c, blockSize);
    ExtentArith(|c|, blockSize, h, e, Tail(c).end);
  }
}

=== FILE: drains.dfy ===
/** The destructive copy loop of `_read`: bytes are taken from the head
    block, and a head that is emptied leaves the chain (`_setNewHead`). The
    blocks that leave go to the pool; that half is `Pools.RetireAll`. */
module Drains {
  import opened Blocks
  import Chains
  import Seqs

  /** What a destructive read leaves of the chain: the bytes copied out and
      the remaining blocks, an empty sequence being the source's null
      `_head`. */
  datatype Drained = Drained(bytes: seq<byte>, chain: seq<Block>)

  /** Number of leading blocks the drain removed. */
  function Dropped(before: seq<Block>, d: Drained): int {
    |before| - |d.chain|
  }

  /** Copies up to `need` bytes out of `chain`, dropping each head it
      empties: the head left behind still holds bytes, or the loop never
      reached it. A head that keeps data ends the loop, since `need` is then
      met. The chain empties exactly when the read wants every buffered byte
      and reaches into the tail, so a tail left empty by `SetLength`
      survives a read of exactly the buffered amount. */
  function Drain(chain: seq<Block>, need: int): (r: Drained)
    requires Chains.AllCursors(chain) && need >= 0
    ensures Chains.AllCursors(r.chain)
    ensures |r.bytes| == Min(need, |Chains.Contents(chain)|)
    ensures r.bytes + Chains.Contents(r.chain) == Chains.Contents(chain)
    ensures |r.chain| <= |chain|
    ensures 0 < |r.chain| ==> Chains.Resumes(chain, r.chain)
    ensures 0 < |r.chain| ==> Size(r.chain[0]) > 0 || r.chain[0] == chain[|chain| - |r.chain|]
    ensures |r.chain| == 0
        <==> (|chain| == 0
          || (need >= Chains.TotalSize(chain) && need > Chains.TotalSize(chain) - Size(Chains.Tail(chain))))
    decreases |chain|, 1
  {
    if |chain| == 0 then Drained([], chain)
    else if need == 0 then
      Chains.TailWithin(chain);
      Drained([], chain)
    else
      DrainHead(chain, need)
  }

  /** One round of `Drain`: copy from the head and drop it if emptied. */
  function DrainHead(chain: seq<Block>, need: int): (r: Drained)
    requires Chains.AllCursors(chain) && need > 0 && |chain| > 0
    ensures Chains.AllCursors(r.chain)
    ensures |r.bytes| == Min(need, |Chains.Contents(chain)|)
    ensures r.bytes + Chains.Contents(r.chain) == Chains.Contents(chain)
    ensures |r.chain| <= |chain|
    ensures 0 < |r.chain| ==> Chains.Resumes(chain, r.chain)
    ensures 0 < |r.chain| ==> Size(r.chain[0]) > 0 || r.chain[0] == chain[|chain| - |r.chain|]
    ensures |r.chain| == 0
        <==> need >= Chains.TotalSize(chain) && need > Chains.TotalSize(chain) - Size(Chains.Tail(chain))
    decreases |chain|, 0
  {
    var head := chain[0];
    assert |Chains.Contents(chain[1..])| == Chains.TotalSize(chain[1..]);
    var k := Min(Size(head), need);
    var consumed := Consume(head, k);
    if consumed.start >= consumed.end then
      var rest := Drain(chain[1..], need - k);
      Chains.ResumesBehind(chain, rest.chain);
      assert Live(head)[..k] == Live(head);
      assert Chains.Contents(chain) == Live(head) + (rest.bytes + Chains.Contents(rest.chain));
      var r := Drained(Live(head)[..k] + rest.bytes, rest.chain);
      Seqs.Regroup(Live(head), rest.bytes, Chains.Contents(rest.chain));
      assert |chain| > 1 ==> Chains.Tail(chain[1..]) == Chains.Tail(chain);
      r
    else
      var r := Drained(Live(head)[..k], [consumed] + chain[1..]);
      assert r.chain[1..] == chain[1..];
      assert Chains.Contents(r.chain) == Live(consumed) + Chains.Contents(chain[1..]);
      assert Live(head) == Live(head)[..k] + Live(consumed);
      Seqs.Regroup(Live(head)[..k], Live(consumed), Chains.Contents(chain[1..]));
      r
  }
}

=== FILE: links.dfy ===
/** The chain at the level of object references: node identities, their
    `Next` links and the pool as a stack of identities. The rest of the
    model holds the chain as a sequence and cannot express a stale link;
    this module shows what `_setNewHead` and `_addNodeToTail` do to the
    links, and the linking the sequence model corresponds to. */
module Links {

  /** Node `i`'s `Next` is `next[i]`, with -1 for null; `pool` lists the
      pooled nodes from the bottom slot to the top one. */
  datatype Graph = Graph(next: seq<int>, head: int, tail: int, pool: seq<int>, capacity: nat)

  predicate IsNode(g: Graph, i: int) {
    0 <= i < |g.next|
  }

  /** Every link, the tail and every pooled entry name a node. */
  predicate InRange(g: Graph) {
    && IsNode(g, g.tail)
    && (forall i :: 0 <= i < |g.next| ==> -1 <= g.next[i] < |g.next|)
    && (forall k :: 0 <= k < |g.pool| ==> IsNode(g, g.pool[k]))
  }

  /** `ids` are distinct nodes, each linked to the next, and the last one's
      `Next` is null: the walk of `_getLength` from `ids[0]` visits exactly
      them and stops. */
  predicate IsList(next: seq<int>, ids: seq<int>) {
    && |ids| > 0
    && (forall k :: 0 <= k < |ids| ==> 0 <= ids[k] < |next|)
    && (forall j, k :: 0 <= j < k < |ids| ==> ids[j] != ids[k])
    && (forall k :: 0 <= k < |ids| - 1 ==> next[ids[k]] == ids[k + 1])
    && next[ids[|ids| - 1]] == -1
  }

  /** `_setNewHead(_head.Next)`: the old head is pushed while a slot is
      free, and no `Next` is touched. */
  function SetNewHead(g: Graph): (r: Graph)
    requires InRange(g) && IsNode(g, g.head)
    ensures r.next == g.next && r.tail == g.tail && r.head == g.next[g.head]
    ensures |g.pool| < g.capacity ==> r.pool == g.pool + [g.head]
    ensures |g.pool| >= g.capacity ==> r.pool == g.pool
    ensures InRange(r)
  {
    if g.capacity > |g.pool| then g.(pool := g.pool + [g.head], head := g.next[g.head])
    else g.(head := g.next[g.head])
  }

  /** `_addNodeToTail` as written: with more than one node pooled the top
      one is popped, otherwise a node with a null `Next` is allocated; it is
      linked behind the tail and becomes the tail. The popped node keeps the
      `Next` it had when it was retired. */
  function AddNodeToTail(g: Graph): (r: Graph)
    requires InRange(g)
    ensures InRange(r) && |g.next| <= |r.next| && r.head == g.head && r.capacity == g.capacity
    ensures r.next[g.tail] == r.tail
    ensures |g.pool| > 1 ==> r.tail == g.pool[|g.pool| - 1] && r.pool == g.pool[..|g.pool| - 1]
    ensures |g.pool| > 1 && r.tail != g.tail ==> r.next[r.tail] == g.next[r.tail]
    ensures |g.pool| <= 1 ==> r.tail == |g.next| && r.next[r.tail] == -1 && r.pool == g.pool
  {
    if |g.pool| > 1 then
      var popped := g.pool[|g.pool| - 1];
      Graph(g.next[g.tail := popped], g.head, popped, g.pool[..|g.pool| - 1], g.capacity)
    else
      var newNode := |g.next|;
      Graph((g.next + [-1])[g.tail := newNode], g.head, newNode, g.pool, g.capacity)
  }

  /** `_addNodeToTail` with the linked node's `Next` cleared, as the
      sequence model of the chain links it (`Chains.LinkTail`). */
  function AddNodeToTailFixed(g: Graph): (r: Graph)
    requires InRange(g)
    ensures InRange(r) && |g.next| <= |r.next| && r.head == g.head && r.capacity == g.capacity
    ensures r.next[r.tail] == -1
    ensures r.tail != g.tail ==> r.next[g.tail] == r.tail
    ensures |g.pool| > 1 ==> r.tail == g.pool[|g.pool| - 1] && r.pool == g.pool[..|g.pool| - 1]
    ensures |g.pool| <= 1 ==> r.tail == |g.next| && r.pool == g.pool
  {
    var linked := AddNodeToTail(g);
    linked.(next := linked.next[linked.tail := -1])
  }

  /** With the corrected linking, a chain that is a null-terminated list
      ending at the tail, and a pool disjoint from it, stays such a list
      with the new tail appended. */
  lemma FixedKeepsList(g: Graph, ids: seq<int>)
    requires InRange(g) && IsList(g.next, ids) && ids[|ids| - 1] == g.tail
    requires forall k :: 0 <= k < |g.pool| ==> g.pool[k] !in ids
    ensures var r := AddNodeToTailFixed(g);
      IsList(r.next, ids + [r.tail])
  {
    var r := AddNodeToTailFixed(g);
    var ext := ids + [r.tail];
    assert r.tail !in ids by {
      if |g.pool| > 1 {
        assert r.tail == g.pool[|g.pool| - 1];
      } else {
        forall k | 0 <= k < |ids|
          ensures ids[k] != r.tail
        {
          assert ids[k] < |g.next|;
        }
      }
    }
    forall k | 0 <= k < |ext| - 1
      ensures r.next[ext[k]] == ext[k + 1]
    {
      if k < |ids| - 1 {
        assert ext[k] == ids[k] && ext[k + 1] == ids[k + 1];
        assert ids[k] != g.tail && ids[k] != r.tail;
      }
    }
    forall j, k | 0 <= j < k < |ext|
      ensures ext[j] != ext[k]
    {
      if k == |ids| {
        assert ext[j] == ids[j];
      } else {
        assert ext[j] == ids[j] && ext[k] == ids[k];
      }
    }
  }

  /** Block size 8, a pool of 8: writing 24 bytes links nodes 0, 1 and 2;
      reading 16 retires nodes 0 and 1, and node 1 still links to node 2,
      the new head and tail. */
  lemma ReadRetiresTwoHeads()
    ensures IsList([1, 2, -1], [0, 1, 2])
    ensures var g1 := SetNewHead(SetNewHead(Graph([1, 2, -1], 0, 2, [], 8)));
      g1.next == [1, 2, -1] && g1.head == 2 && g1.tail == 2 && g1.pool == [0, 1] && g1.capacity == 8
  {
    var ids := [0, 1, 2];
    assert ids[0] == 0 && ids[1] == 1 && ids[2] == 2;
    var g := SetNewHead(Graph([1, 2, -1], 0, 2, [], 8));
    assert g.head == 1 && g.pool == [0];
    assert SetNewHead(g).pool == [0] + [1];
  }

  /** Writing one more byte after `ReadRetiresTwoHeads`: as written, the
      popped node 1 becomes the tail but still links back to the head, so
      the chain is a cycle and the walk of `_getLength` never reaches null. */
  lemma StaleNextClosesCycle()
    ensures var g1 := Graph([1, 2, -1], 2, 2, [0, 1], 8);
      var g2 := AddNodeToTail(g1);
      && IsList(g1.next, [g1.head]) && g1.head == g1.tail
      && g2.tail == 1 && g2.next[g2.head] == g2.tail && g2.next[g2.tail] == g2.head
      && !IsList(g2.next, [g2.head, g2.tail])
  {
    var g1 := Graph([1, 2, -1], 2, 2, [0, 1], 8);
    assert AddNodeToTail(g1).next == [1, 2, 1];
  }

  /** The same write with the corrected linking leaves the two-node list
      head, node 1. */
  lemma FixedLinkEndsList()
    ensures var g1 := Graph([1, 2, -1], 2, 2, [0, 1], 8);
      var f := AddNodeToTailFixed(g1);
      f.tail == 1 && IsList(f.next, [g1.head, f.tail])
  {
    var g1 := Graph([1, 2, -1], 2, 2, [0, 1], 8);
    assert AddNodeToTailFixed(g1).next == [1, -1, 1];
  }
}

=== FILE: pools.dfy ===
/** The bounded pool of retired blocks: an array of slots and the index of
    the topmost occupied one (`_pool` and `_currentPoolPos`). -1 means empty.
    Slots 0..top hold rewound blocks and the slots above `top` are empty. */
module Pools {
  import opened Blocks

  datatype Pool = Pool(slots: seq<Option>, top: int)

  datatype Option = None | Some(block: Block)

  /** `PoolSize`: the length of the slot array. */
  function Capacity(p: Pool): int {
    |p.slots|
  }

  /** Number of pooled blocks. */
  function Occupancy(p: Pool): int {
    p.top + 1
  }

  /** Slots up to `top` are occupied and the rest are empty. */
  predicate Shaped(p: Pool) {
    && -1 <= p.top < |p.slots|
    && forall i :: 0 <= i < |p.slots| ==> (p.slots[i].Some? <==> i <= p.top)
  }

  predicate Valid(p: Pool, blockSize: int) {
    && Shaped(p)
    && forall i :: 0 <= i <= p.top ==> p.slots[i].Some? && Rewound(p.slots[i].block, blockSize)
  }

  /** The pooled blocks from the bottom slot to the top one. */
  function Stack(p: Pool): (r: seq<Block>)
    requires Shaped(p)
    ensures |r| == Occupancy(p)
  {
    seq(p.top + 1, i requires 0 <= i <= p.top => p.slots[i].block)
  }

  /** A pool of `capacity` empty slots, as `_init` allocates it. */
  function Empty(capacity: nat): (r: Pool)
    ensures Shaped(r) && Capacity(r) == capacity && Occupancy(r) == 0
    ensures forall blockSize :: Valid(r, blockSize)
  {
    Pool(seq(capacity, _ => None), -1)
  }

  /** Keeps a block that has left the chain: it is rewound and pushed while
      a slot is free, and released otherwise (`_setNewHead`). */
  function Retire(p: Pool, b: Block): (r: Pool)
    requires Valid(p, |b.data|)
    ensures Valid(r, |b.data|) && Capacity(r) == Capacity(p)
    ensures Occupancy(p) >= Capacity(p) ==> r == p
    ensures Occupancy(r) == Min(Capacity(p), Occupancy(p) + 1)
  {
    if |p.slots| > p.top + 1 then
      Pool(p.slots[p.top + 1 := Some(Rewind(b))], p.top + 1)
    else
      p
  }

  /** A block retired into a free slot lands on top of the stack, rewound. */
  lemma RetirePushes(p: Pool, b: Block)
    requires Valid(p, |b.data|) && Occupancy(p) < Capacity(p)
    ensures Stack(Retire(p, b)) == Stack(p) + [Rewind(b)]
  {
    var r := Retire(p, b);
    assert forall i :: 0 <= i <= p.top ==> Stack(r)[i] == Stack(p)[i];
  }

  /** Obtains the block for a new tail (`_addNodeToTail`): the top pooled
      block when `top > 0`, otherwise a fresh one. The bottom slot is never
      handed out, so a pool holding one block allocates anyway. */
  function Acquire(p: Pool, blockSize: nat): (r: (Pool, Block))
    requires Valid(p, blockSize)
    ensures Valid(r.0, blockSize) && Capacity(r.0) == Capacity(p)
    ensures Rewound(r.1, blockSize)
    ensures Occupancy(p) <= 1 ==> r.0 == p && r.1 == Fresh(blockSize)
    ensures Occupancy(r.0) == AfterTaking(Occupancy(p), 1)
  {
    if p.top > 0 then
      (Pool(p.slots[p.top := None], p.top - 1), p.slots[p.top].block)
    else
      (p, Fresh(blockSize))
  }

  /** Retires `blocks` one after another, first to last: the pool takes
      them until it is full and releases the rest. */
  function RetireAll(p: Pool, blocks: seq<Block>, blockSize: nat): (r: Pool)
    requires Valid(p, blockSize)
    requires forall i :: 0 <= i < |blocks| ==> |blocks[i].data| == blockSize
    ensures Valid(r, blockSize) && Capacity(r) == Capacity(p)
    ensures Occupancy(r) == Min(Capacity(p), Occupancy(p) + |blocks|)
    decreases |blocks|
  {
    if |blocks| == 0 then p
    else RetireAll(Retire(p, blocks[0]), blocks[1..], blockSize)
  }

  /** With more than one block pooled, `Acquire` pops the top one. */
  lemma AcquirePops(p: Pool, blockSize: nat)
    requires Valid(p, blockSize) && Occupancy(p) > 1
    ensures Stack(Acquire(p, blockSize).0) + [Acquire(p, blockSize).1] == Stack(p)
  {
    var r := Acquire(p, blockSize);
    assert forall i :: 0 <= i < p.top ==> Stack(r.0)[i] == Stack(p)[i];
  }

  /** The pool after `k` consecutive `Acquire`s. */
  function Take(p: Pool, blockSize: nat, k: nat): (r: Pool)
    requires Valid(p, blockSize)
    ensures Valid(r, blockSize) && Capacity(r) == Capacity(p)
    decreases k
  {
    if k == 0 then p else Take(Acquire(p, blockSize).0, blockSize, k - 1)
  }

  /** `k` acquisitions are one followed by `k - 1` more. */
  lemma TakeFirst(p: Pool, blockSize: nat, k: nat)
    requires Valid(p, blockSize) && k >= 1
    ensures Take(p, blockSize, k) == Take(Acquire(p, blockSize).0, blockSize, k - 1)
  {
  }

  /** `k` acquisitions take `k` blocks, but never the bottom one. */
  lemma {:induction false} TakeOccupancy(p: Pool, blockSize: nat, k: nat)
    requires Valid(p, blockSize)
    ensures Occupancy(Take(p, blockSize, k)) == AfterTaking(Occupancy(p), k)
    decreases k
  {
    if k > 0 {
      TakeOccupancy(Acquire(p, blockSize).0, blockSize, k - 1);
      AfterTakingStep(Occupancy(p), k);
    }
  }

  /** Occupancy after `k` consecutive `Acquire`s from a pool holding
      `occupancy` blocks: each takes one, but never the last. */
  function AfterTaking(occupancy: int, k: int): int {
    if occupancy <= 1 then occupancy else Max(1, occupancy - k)
  }

  /** Taking once more from the state `k` takes left. */
  lemma AfterTakingStep(occupancy: int, k: int)
    requires k >= 1
    ensures AfterTaking(AfterTaking(occupancy, 1), k - 1) == AfterTaking(occupancy, k)
  {
  }

  /** `PoolSize = n` (`_setPoolSize`): a new slot array of length `n` keeps
      the slots 0..min(top, n - 1); `top` is clamped to `n - 1`. */
  function Resize(p: Pool, n: nat): (r: Pool)
    requires Shaped(p)
    ensures Shaped(r) && Capacity(r) == n
    ensures Stack(r) == Stack(p)[..Min(Occupancy(p), n)]
    ensures forall i :: 0 <= i <= r.top ==> r.slots[i] == p.slots[i]
  {
    var top := if p.top > n - 1 then n - 1 else p.top;
    var r := Pool(seq(n, i => if 0 <= i < |p.slots| && i <= p.top then p.slots[i] else None), top);
    assert Stack(r) == Stack(p)[..Min(Occupancy(p), n)];
    r
  }
}

=== FILE: properties.dfy ===
/** Properties that relate several calls on the stream: write/read round
    trips, what a peek leaves behind, the length counter across operations,
    and the behaviours of `SetLength` and the pool that follow from the
    source's physical offsets and slot handling. */
module StreamProperties {
  import Blocks
  import Arith
  import Chains
  import Pools
  import opened Streams

  /** The unit test's scenario: a default stream with caching on and a pool
      of 8, after writing 64 bytes, reports a length of 64 and holds exactly
      those bytes. */
  lemma LengthAfterWritingSixtyFour(bytes: seq<Blocks.byte>)
    requires |bytes| == 64
    ensures var s := Write(New(true, 8), bytes, 0, 64);
      Length(s).0 == 64 && Contents(s) == bytes && |s.chain| == 1
  {
    var s0 := New(true, 8);
    var s := Write(s0, bytes, 0, 64);
    assert bytes[0..64] == bytes;
    WriteLinksFewest(s0, bytes, 0, 64);
    assert Writes.FewestBlocks(DefaultBlockSize(), 64, DefaultBlockSize(), |s.chain| - 1);
  }

  /** Writing `src` and then reading everything back returns the old
      contents followed by `src`, and leaves nothing behind. */
  lemma WriteThenReadAll(s: Stream, src: seq<Blocks.byte>, out: seq<Blocks.byte>)
    requires Valid(s) && |out| == Available(s) + |src|
    ensures var w := Write(s, src, 0, |src|);
      var r := Read(w, out, 0, |out|);
      && r.Ok? && r.value.count == |out|
      && r.value.buffer == Contents(s) + src
      && Contents(r.value.stream) == []
  {
    var w := Write(s, src, 0, |src|);
    WrittenWhole(src);
    var r := Read(w, out, 0, |out|);
    assert |Contents(w)| == |out|;
    assert Contents(w)[..|out|] == Contents(w);
    assert r.value.buffer == Blocks.Splice(out, 0, Contents(w));
    assert r.value.buffer[0..|out|] == Contents(w);
  }

  /** Two writes leave the same contents and counter as one write of the
      concatenated bytes. */
  lemma WritesConcatenate(s: Stream, a: seq<Blocks.byte>, b: seq<Blocks.byte>)
    requires Valid(s)
    ensures var one := Write(Write(s, a, 0, |a|), b, 0, |b|);
      var both := Write(s, a + b, 0, |a| + |b|);
      && Contents(one) == Contents(both) == Contents(s) + a + b
      && one.cachedLength == both.cachedLength
  {
    var first := Write(s, a, 0, |a|);
    WrittenWhole(a);
    WrittenWhole(b);
    WrittenWhole(a + b);
    assert Contents(Write(first, b, 0, |b|)) == (Contents(s) + a) + b;
    assert Contents(Write(s, a + b, 0, |a| + |b|)) == Contents(s) + (a + b);
  }

  /** A non-destructive read (`ToArray(false)`, or `_read` with
      `removeReadData` false) copies the same bytes a destructive read would,
      and leaves the stream as it found it. */
  lemma PeekMatchesRead(s: Stream, buffer: seq<Blocks.byte>, offset: int, count: int)
    requires Valid(s) && 0 <= offset && 0 <= count
    ensures var peek := ReadCore(s, buffer, offset, count, false);
      var read := Read(s, buffer, offset, count);
      && peek.Ok? == read.Ok?
      && (peek.Ok? ==> peek.value.count == read.value.count && peek.value.buffer == read.value.buffer)
      && (peek.Ok? ==> peek.value.stream == s)
  {
  }

  /** After `ToArray(false)` a read returns exactly what it would have
      returned before. */
  lemma ToArrayThenRead(s: Stream, buffer: seq<Blocks.byte>, offset: int, count: int)
    requires Valid(s) && 0 <= offset && 0 <= count
    ensures var t := ToArray(s, false).1;
      var before := Read(s, buffer, offset, count);
      var after := Read(t, buffer, offset, count);
      && before.Ok? == after.Ok?
      && (after.Ok? ==> after.value.count == before.value.count && after.value.buffer == before.value.buffer)
      && (after.Ok? ==> Contents(after.value.stream) == Contents(before.value.stream))
  {
    var t := ToArray(s, false).1;
    assert t.chain == s.chain && t.blockSize == s.blockSize;
  }

  /** A read from offset 0 puts the first bytes of the contents at the
      front of the buffer. */
  lemma ReadFront(t: Stream, out: seq<Blocks.byte>)
    requires Valid(t)
    ensures var r := Read(t, out, 0, |out|);
      && r.Ok? && r.value.count == Blocks.Min(|out|, Available(t))
      && r.value.buffer[..r.value.count] == Contents(t)[..r.value.count]
  {
    var r := Read(t, out, 0, |out|);
    assert r.value.buffer == Blocks.Splice(out, 0, Contents(t)[..r.value.count]);
  }

  /** With an undrained head, `SetLength(L)` succeeds exactly when `L` is at
      most the length and is not the end of a full tail, and it then keeps the
      first `L` bytes with an exact counter. */
  lemma SetLengthUndrained(s: Stream, newLength: int)
    requires Valid(s) && newLength >= 0 && s.chain[0].start == 0
    ensures SetLength(s, newLength).Ok?
        <==> (newLength < Available(s) || (newLength == Available(s) && Chains.Tail(s.chain).end < s.blockSize))
    ensures SetLength(s, newLength).Ok? ==>
      && Contents(SetLength(s, newLength).value) == Contents(s)[..newLength]
      && Consistent(SetLength(s, newLength).value)
  {
    Chains.PhysicalExtent(s.chain, s.blockSize);
    Arith.MulSucc(|s.chain| - 1, s.blockSize);
  }

  /** `SetLength(Length)` on a consistent stream with an undrained head and
      a full tail throws, although it asks for no change. */
  lemma SetLengthToLengthRejectedOnFullTail(s: Stream)
    requires Valid(s) && Consistent(s) && s.chain[0].start == 0 && Chains.Tail(s.chain).end == s.blockSize
    ensures SetLength(s, Length(s).0).Err?
  {
    assert |Contents(s)| == Available(s);
    SetLengthUndrained(s, Available(s));
  }

  /** `SetLength(Length)` on a consistent stream whose head is partly
      drained does not throw, whatever the tail holds, but it keeps only the
      first `Length - head.start` bytes: the request is read as a physical
      offset. */
  lemma SetLengthToLengthOnDrainedHead(s: Stream)
    requires Valid(s) && Consistent(s) && s.chain[0].start > 0
    ensures SetLength(s, Length(s).0).Ok?
    ensures Contents(SetLength(s, Length(s).0).value)
         == Contents(s)[..Blocks.Max(0, Available(s) - s.chain[0].start)]
  {
    Chains.PhysicalExtent(s.chain, s.blockSize);
    Arith.MulSucc(|s.chain| - 1, s.blockSize);
    assert Length(s).0 == Available(s);
  }

  /** After a successful `SetLength` the counter exceeds the bytes held by
      the head's read cursor, clamped to the new length: the offsets are
      physical, so a partly drained head skews the counter. */
  lemma SetLengthCounterSkew(s: Stream, newLength: int)
    requires Valid(s) && 0 <= newLength <= Available(s) + s.chain[0].start
    requires newLength != |s.chain| * s.blockSize
    ensures SetLength(s, newLength).Ok?
    ensures var t := SetLength(s, newLength).value;
      t.cachedLength - Available(t) == Blocks.Min(s.chain[0].start, newLength)
  {
    var t := SetLength(s, newLength).value;
    assert |Contents(t)| == Blocks.Max(0, newLength - s.chain[0].start);
  }

  /** A read that drains every block resets the stream: the pool is emptied
      although the drained blocks were offered to it. */
  lemma DrainingEverythingEmptiesPool(s: Stream, buffer: seq<Blocks.byte>)
    requires Valid(s) && Blocks.Size(Chains.Tail(s.chain)) > 0 && |buffer| == Available(s)
    ensures var r := Read(s, buffer, 0, |buffer|);
      && r.Ok? && Pools.Occupancy(r.value.stream.pool) == 0
      && PoolSize(r.value.stream) == PoolSize(s)
  {
    Chains.WellFormedParts(s.chain, s.blockSize);
    Chains.TailWithin(s.chain);
  }

  /** The bottom slot of the pool is never handed out: a write into a stream
      whose pool holds one block allocates new blocks and keeps that one. */
  lemma BottomSlotKept(s: Stream, src: seq<Blocks.byte>)
    requires Valid(s) && Pools.Occupancy(s.pool) == 1
    ensures Pools.Occupancy(Write(s, src, 0, |src|).pool) == 1
  {
    WriteLinksFewest(s, src, 0, |src|);
  }

  /** `Clear` is idempotent and forgets everything but the configuration. */
  lemma ClearIdempotent(s: Stream)
    requires s.blockSize > 0
    ensures Clear(Clear(s)) == Clear(s)
  {
  }

  /** Reading the length twice gives the same answer, and with caching off
      the counter is repaired by the first read. */
  lemma LengthStable(s: Stream)
    requires Valid(s)
    ensures Length(Length(s).1) == Length(s)
  {
  }
}

=== FILE: seqs.dfy ===
/** Regrouping and slicing facts about sequences that the chain, drain and
    write proofs appeal to. */
module Seqs {

  lemma Regroup<T>(a: seq<T>, b: seq<T>, c: seq<T>)
    ensures (a + b) + c == a + (b + c)
  {
  }

  lemma Rejoin<T>(base: seq<T>, src: seq<T>, k: int)
    requires 0 <= k <= |src|
    ensures (base + src[..k]) + src[k..] == base + src
  {
    assert src[..k] + src[k..] == src;
  }

  lemma PrefixThrough<T>(a: seq<T>, b: seq<T>, c: seq<T>, k: int)
    requires 0 <= k <= |b|
    ensures (a + b + c)[..|a| + k] == a + b[..k]
  {
  }

  lemma PrefixOfPrefix<T>(r: seq<T>, l: seq<T>, m: int, k: int)
    requires 0 <= k <= m <= |l| && m <= |r| && r[..m] == l[..m]
    ensures r[..k] == l[..k]
  {
    assert r[..k] == r[..m][..k];
  }
}

=== FILE: streams.dfy ===
/** The block-based memory stream: a chain of fixed-capacity blocks, a pool
    of retired blocks, and a length counter (BlockBasedMemoryStream). Every
    operation is a function from the old state to the new one; thrown
    exceptions become `Err` values, and the state a throwing call leaves
    behind is the one the caller already holds. */
module Streams {
  import opened Blocks
  import Arith
  import Chains
  import Pools
  import Drains
  import Writes

  /** The block size of the parameterless constructor: 2^16 - 1 bytes. */
  function DefaultBlockSize(): int { 65535 }

  datatype Stream = Stream(
    blockSize: int,
    chain: seq<Block>,           // head first, tail last
    pool: Pools.Pool,
    useLengthCaching: bool,
    cachedLength: int)

  /** The exceptions the core throws. */
  datatype Error =
    | CountOutOfRange      // ArgumentOutOfRangeException: count > buffer.Length - offset
    | OffsetOutOfRange     // ArgumentOutOfRangeException: offset > buffer.Length
    | LengthNotSupported   // ArgumentException from SetLength

  datatype Result<T> = Ok(value: T) | Err(error: Error)

  /** What a read returns: the number of bytes copied, the destination
      buffer after the copy, and the stream after the read. */
  datatype Transfer = Transfer(count: int, buffer: seq<byte>, stream: Stream)

  /** The shape of the chain and the pool, whatever the counter says. */
  predicate Structured(s: Stream) {
    && s.blockSize > 0
    && Chains.WellFormed(s.chain, s.blockSize)
    && Pools.Valid(s.pool, s.blockSize)
  }

  /** Every reachable state: structured, and the counter never reports less
      than the stream holds. */
  predicate Valid(s: Stream) {
    Structured(s) && s.cachedLength >= Available(s)
  }

  /** Number of unread bytes: the walk over the chain. */
  function Available(s: Stream): int {
    Chains.TotalSize(s.chain)
  }

  /** The abstract contents: the unread bytes of the chain, head to tail. */
  function Contents(s: Stream): (r: seq<byte>)
    requires Structured(s)
    ensures |r| == Available(s)
  {
    Chains.Contents(s.chain)
  }

  /** The counter agrees with the chain. */
  predicate Consistent(s: Stream) {
    s.cachedLength == Available(s)
  }

  /** `PoolSize` (getter). */
  function PoolSize(s: Stream): (r: int)
    ensures r >= 0
    ensures Pools.Shaped(s.pool) ==> Pools.Occupancy(s.pool) <= r
  {
    Pools.Capacity(s.pool)
  }

  /** `_init`: one empty block as head and tail, counter 0, a pool of
      `poolSize` empty slots. */
  function Init(blockSize: int, useLengthCaching: bool, poolSize: int): (r: Stream)
    requires blockSize > 0 && poolSize >= 0
    ensures Valid(r) && Consistent(r) && r.cachedLength == 0
    ensures Contents(r) == [] && |r.chain| == 1 && Rewound(r.chain[0], blockSize)
    ensures r.blockSize == blockSize && r.useLengthCaching == useLengthCaching
    ensures PoolSize(r) == poolSize && Pools.Occupancy(r.pool) == 0
  {
    Chains.Single(Fresh(blockSize));
    Stream(blockSize, [Fresh(blockSize)], Pools.Empty(poolSize), useLengthCaching, 0)
  }

  /** The constructor without a block size: `_init` with the default
      block size. */
  function New(useLengthCaching: bool, poolSize: int): (r: Stream)
    requires poolSize >= 0
    ensures r.blockSize == DefaultBlockSize() && r.useLengthCaching == useLengthCaching
    ensures r.cachedLength == 0 && PoolSize(r) == poolSize && Pools.Occupancy(r.pool) == 0
    ensures Valid(r) && Consistent(r) && Contents(r) == []
    ensures |r.chain| == 1 && Rewound(r.chain[0], DefaultBlockSize())
  {
    Chains.Single(Fresh(DefaultBlockSize()));
    Stream(DefaultBlockSize(), [Fresh(DefaultBlockSize())], Pools.Empty(poolSize), useLengthCaching, 0)
  }

  /** `Clear`: reinitialises everything with the same block size, caching
      mode and pool size. The pooled blocks are discarded. */
  function Clear(s: Stream): (r: Stream)
    requires s.blockSize > 0
    ensures Valid(r) && Consistent(r) && Contents(r) == []
    ensures r.blockSize == s.blockSize && r.useLengthCaching == s.useLengthCaching
    ensures PoolSize(r) == PoolSize(s) && Pools.Occupancy(r.pool) == 0
    ensures |r.chain| == 1 && Rewound(r.chain[0], s.blockSize)
  {
    Init(s.blockSize, s.useLengthCaching, PoolSize(s))
  }

  /** `Length`: the counter when caching is on, otherwise the walk; either
      way the counter is overwritten with the answer. */
  function Length(s: Stream): (r: (int, Stream))
    requires Valid(s)
    ensures r.0 >= |Contents(s)|
    ensures s.useLengthCaching ==> r.0 == s.cachedLength
    ensures !s.useLengthCaching ==> r.0 == |Contents(s)| && Consistent(r.1)
    ensures r.1 == s.(cachedLength := r.0) && Valid(r.1)
    ensures Consistent(s) ==> r == (|Contents(s)|, s)
  {
    var counted := if s.useLengthCaching then s.cachedLength else Chains.TotalSize(s.chain);
    (counted, s.(cachedLength := counted))
  }

  /** The bytes `Write` copies: none when `count` is 0, whatever `offset`
      is, since the copy loop then never indexes `buffer`. */
  predicate Writable(buffer: seq<byte>, offset: int, count: int) {
    0 <= count && (count == 0 || (0 <= offset && offset + count <= |buffer|))
  }

  function Written(buffer: seq<byte>, offset: int, count: int): (r: seq<byte>)
    requires Writable(buffer, offset, count)
    ensures |r| == count
  {
    if count == 0 then [] else buffer[offset..offset + count]
  }

  lemma WrittenWhole(buffer: seq<byte>)
    ensures Written(buffer, 0, |buffer|) == buffer
  {
    assert buffer[0..|buffer|] == buffer;
  }

  /** `Write(buffer, offset, count)`: appends `buffer[offset..offset+count)`
      and adds `count` to the counter, whether caching is on or not. The
      source checks no argument; the requires clause excludes a negative
      count and a positive one that would index outside `buffer`. */
  function Write(s: Stream, buffer: seq<byte>, offset: int, count: int): (r: Stream)
    requires Valid(s)
    requires Writable(buffer, offset, count)
    ensures Valid(r)
    ensures Contents(r) == Contents(s) + Written(buffer, offset, count)
    ensures count == 0 ==> r == s
    ensures r.cachedLength == s.cachedLength + count
    ensures Consistent(s) ==> Consistent(r)
    ensures r.blockSize == s.blockSize && r.useLengthCaching == s.useLengthCaching
    ensures |r.chain| >= |s.chain|
    ensures r.chain[..|s.chain| - 1] == s.chain[..|s.chain| - 1]
    ensures r.chain[0].start == s.chain[0].start
    ensures PoolSize(r) == PoolSize(s)
  {
    var grown := Writes.Grow(s.chain, s.pool, s.blockSize, Written(buffer, offset, count));
    s.(chain := grown.chain, pool := grown.pool, cachedLength := s.cachedLength + count)
  }

  /** A write links the fewest blocks that hold the bytes (the tail is
      filled first and a new block is linked only when bytes remain), and
      takes every linked block from the pool while it holds more than one. */
  lemma WriteLinksFewest(s: Stream, buffer: seq<byte>, offset: int, count: int)
    requires Valid(s)
    requires Writable(buffer, offset, count)
    ensures var r := Write(s, buffer, offset, count);
      && Writes.FewestBlocks(s.blockSize - Chains.Tail(s.chain).end, count, s.blockSize, |r.chain| - |s.chain|)
      && Pools.Occupancy(r.pool) == Pools.AfterTaking(Pools.Occupancy(s.pool), |r.chain| - |s.chain|)
  {
    var src := Written(buffer, offset, count);
    var r := Write(s, buffer, offset, count);
    Writes.GrowCounts(s.chain, s.pool, s.blockSize, src);
    Pools.TakeOccupancy(s.pool, s.blockSize, |r.chain| - |s.chain|);
    assert |src| == count;
    Writes.NewBlocksFewest(s.blockSize - Chains.Tail(s.chain).end, count, s.blockSize, |r.chain| - |s.chain|);
  }

  /** Whether a destructive read of `count` bytes empties the chain: it
      reaches the tail with bytes still wanted and drains it. */
  predicate DrainsAll(s: Stream, count: int)
    requires |s.chain| > 0
  {
    count >= Available(s) && count > Available(s) - Size(Chains.Tail(s.chain))
  }

  /** A destructive read that did not empty the chain: block size, caching
      mode and pool size kept, `n` subtracted from the counter, the chain
      resumed past every emptied head, and every retired block pooled while
      a slot was free. */
  predicate Retained(s: Stream, t: Stream, n: int) {
    && t.blockSize == s.blockSize
    && t.useLengthCaching == s.useLengthCaching
    && t.cachedLength == s.cachedLength - n
    && PoolSize(t) == PoolSize(s)
    && |t.chain| <= |s.chain|
    && (0 < |t.chain| ==> Chains.Resumes(s.chain, t.chain))
    && (0 < |t.chain| ==> Size(t.chain[0]) > 0 || t.chain[0] == s.chain[|s.chain| - |t.chain|])
    && Pools.Occupancy(t.pool) == Min(PoolSize(s), Pools.Occupancy(s.pool) + |s.chain| - |t.chain|)
  }

  /** `_read(buffer, offset, count, removeReadData)`. */
  function ReadCore(s: Stream, buffer: seq<byte>, offset: int, count: int, removeReadData: bool): (r: Result<Transfer>)
    requires Valid(s)
    requires 0 <= offset && 0 <= count
    ensures r.Err? <==> count > |buffer| - offset || offset > |buffer|
    ensures r.Err? ==> r.error == (if count > |buffer| - offset then CountOutOfRange else OffsetOutOfRange)
    ensures r.Ok? ==> r.value.count == Min(count, Available(s))
    ensures r.Ok? ==> r.value.buffer == Splice(buffer, offset, Contents(s)[..r.value.count])
    ensures r.Ok? ==> Valid(r.value.stream)
    ensures r.Ok? ==> Contents(r.value.stream) == if removeReadData then Contents(s)[r.value.count..] else Contents(s)
    ensures r.Ok? && (count == 0 || !removeReadData) ==> r.value.stream == s
    ensures r.Ok? && removeReadData && count > 0 && DrainsAll(s, count) ==> r.value.stream == Clear(s)
    ensures r.Ok? && removeReadData && count > 0 && !DrainsAll(s, count) ==> Retained(s, r.value.stream, r.value.count)
    ensures r.Ok? && Consistent(s) ==> Consistent(r.value.stream)
  {
    assert |Contents(s)| == Available(s);
    if count > |buffer| - offset then Err(CountOutOfRange)
    else if offset > |buffer| then Err(OffsetOutOfRange)
    else if count == 0 || |buffer| == 0 then Ok(Transfer(0, buffer, s))
    else if !removeReadData then
      var bytes := Chains.Peek(s.chain, count);
      Ok(Transfer(|bytes|, Splice(buffer, offset, bytes), s))
    else
      var (bytes, after) := Remove(s, count);
      Ok(Transfer(|bytes|, Splice(buffer, offset, bytes), after))
  }

  /** The removing loop of `_read` and what follows it: the first `count`
      bytes leave the stream; a chain drained to nothing is replaced by
      `Clear`, otherwise the counter drops by the bytes copied. */
  function Remove(s: Stream, count: int): (r: (seq<byte>, Stream))
    requires Valid(s) && count > 0
    ensures r.0 == Contents(s)[..Min(count, Available(s))]
    ensures Valid(r.1) && Contents(r.1) == Contents(s)[|r.0|..]
    ensures DrainsAll(s, count) ==> r.1 == Clear(s)
    ensures !DrainsAll(s, count) ==> Retained(s, r.1, |r.0|)
    ensures Consistent(s) ==> Consistent(r.1)
  {
    Chains.WellFormedParts(s.chain, s.blockSize);
    var d := Drains.Drain(s.chain, count);
    if |d.chain| == 0 then (d.bytes, Clear(s)) else (d.bytes, Keep(s, d))
  }

  /** The stream after a drain that left blocks behind (`_setNewHead` for
      every dropped head, then `_cachedLength -= read`): the rest of the
      chain, the dropped heads offered to the pool first to last. */
  function Keep(s: Stream, d: Drains.Drained): (r: Stream)
    requires Valid(s) && 0 < |d.chain| <= |s.chain| && Chains.Resumes(s.chain, d.chain)
    requires Chains.AllCursors(d.chain) && d.bytes + Chains.Contents(d.chain) == Contents(s)
    requires Size(d.chain[0]) > 0 || d.chain[0] == s.chain[|s.chain| - |d.chain|]
    ensures Valid(r) && r.chain == d.chain
    ensures Retained(s, r, |d.bytes|)
    ensures Consistent(s) ==> Consistent(r)
  {
    Chains.ResumedIsWellFormed(s.chain, d.chain, s.blockSize);
    var pool := Pools.RetireAll(s.pool, s.chain[..Drains.Dropped(s.chain, d)], s.blockSize);
    s.(chain := d.chain, pool := pool, cachedLength := s.cachedLength - |d.bytes|)
  }

  /** `Read(buffer, offset, count)`: moves up to `count` bytes from the
      front of the stream into `buffer[offset..]`. */
  function Read(s: Stream, buffer: seq<byte>, offset: int, count: int): (r: Result<Transfer>)
    requires Valid(s)
    requires 0 <= offset && 0 <= count
    ensures r.Err? <==> count > |buffer| - offset || offset > |buffer|
    ensures r.Ok? ==> r.value.count == Min(count, Available(s))
    ensures r.Ok? ==> r.value.buffer == Splice(buffer, offset, Contents(s)[..r.value.count])
    ensures r.Ok? ==> Valid(r.value.stream) && Contents(r.value.stream) == Contents(s)[r.value.count..]
    ensures r.Ok? && count == 0 ==> r.value.stream == s
    ensures r.Ok? && count > 0 && DrainsAll(s, count) ==> r.value.stream == Clear(s)
    ensures r.Ok? && count > 0 && !DrainsAll(s, count) ==> Retained(s, r.value.stream, r.value.count)
    ensures r.Ok? && Consistent(s) ==> Consistent(r.value.stream)
  {
    ReadCore(s, buffer, offset, count, true)
  }

  /** `Skip(n)`: a destructive read into a scratch buffer of `n` bytes. */
  function Skip(s: Stream, numberOfBytes: int): (r: Stream)
    requires Valid(s) && numberOfBytes >= 0
    ensures Valid(r)
    ensures Contents(r) == Contents(s)[Min(numberOfBytes, Available(s))..]
    ensures numberOfBytes == 0 ==> r == s
    ensures numberOfBytes > 0 && DrainsAll(s, numberOfBytes) ==> r == Clear(s)
    ensures numberOfBytes > 0 && !DrainsAll(s, numberOfBytes) ==> Retained(s, r, Min(numberOfBytes, Available(s)))
    ensures Consistent(s) ==> Consistent(r)
  {
    Read(s, Zeros(numberOfBytes), 0, numberOfBytes).value.stream
  }

  /** `_read` into a zeroed buffer of `len >= Available(s)` bytes from
      offset 0: the whole contents land at the buffer's front. */
  function ReadAll(s: Stream, len: int, removeReadData: bool): (r: (seq<byte>, Stream))
    requires Valid(s) && len >= Available(s)
    ensures r.0 == Contents(s) + Zeros(len - Available(s))
    ensures !removeReadData || len == 0 ==> r.1 == s
    ensures removeReadData ==> Valid(r.1) && Contents(r.1) == []
    ensures removeReadData && len > 0 && DrainsAll(s, len) ==> r.1 == Clear(s)
    ensures removeReadData && len > 0 && !DrainsAll(s, len) ==> Retained(s, r.1, Available(s))
  {
    assert |Contents(s)| == Available(s);
    var t := ReadCore(s, Zeros(len), 0, len, removeReadData).value;
    assert Zeros(len) == Zeros(len)[..Available(s)] + Zeros(len - Available(s));
    (t.buffer, t.stream)
  }

  /** `ToArray(removeReadData)`: an array of `Length` bytes filled by
      `_read`. The counter may exceed the contents (after a `SetLength` on a
      partly drained head); the excess is left zero. */
  function ToArray(s: Stream, removeReadData: bool): (r: (seq<byte>, Stream))
    requires Valid(s)
    ensures |r.0| == Length(s).0
    ensures r.0 == Contents(s) + Zeros(Length(s).0 - Available(s))
    ensures !removeReadData ==> r.1 == Length(s).1
    ensures removeReadData ==> Valid(r.1) && Contents(r.1) == []
    ensures removeReadData && Length(s).0 == 0 ==> r.1 == Length(s).1
    ensures removeReadData && Length(s).0 > 0 && DrainsAll(s, Length(s).0) ==> r.1 == Clear(s)
    ensures removeReadData && Length(s).0 > 0 && !DrainsAll(s, Length(s).0)
        ==> Retained(Length(s).1, r.1, Available(s))
    ensures Consistent(s) ==> r.0 == Contents(s) && Consistent(r.1)
    ensures Consistent(s) && !removeReadData ==> r.1 == s
  {
    var (len, measured) := Length(s);
    ReadAll(measured, len, removeReadData)
  }

  /** `SetLength(L)`: walk `L / blockSize` blocks from the head, set the
      landed block's write cursor to `L % blockSize` and cut everything after
      it. The offsets are physical, from the start of the head block's
      storage, so the result is exact only when the head is undrained. */
  function SetLength(s: Stream, newLength: int): (r: Result<Stream>)
    requires Valid(s) && newLength >= 0
    ensures r.Ok? <==> newLength <= Available(s) + s.chain[0].start && newLength != |s.chain| * s.blockSize
    ensures r.Err? ==> r.error == LengthNotSupported
    ensures r.Ok? ==> Valid(r.value) && r.value.cachedLength == newLength
    ensures r.Ok? ==> Contents(r.value) == Contents(s)[..Max(0, newLength - s.chain[0].start)]
    ensures r.Ok? ==> |r.value.chain| == newLength / s.blockSize + 1
    ensures r.Ok? ==> |r.value.chain| <= |s.chain|
    ensures r.Ok? ==> r.value.chain[..|r.value.chain| - 1] == s.chain[..|r.value.chain| - 1]
    ensures r.Ok? ==> Chains.Tail(r.value.chain).end == newLength % s.blockSize
    ensures r.Ok? ==> r.value.pool == s.pool && r.value.blockSize == s.blockSize
    ensures r.Ok? ==> r.value.useLengthCaching == s.useLengthCaching
    ensures r.Ok? && s.chain[0].start == 0 ==> Consistent(r.value)
  {
    var hops := newLength / s.blockSize;
    var newEnd := newLength % s.blockSize;
    Chains.Landing(s.chain, s.blockSize, newLength);
    Arith.Split(newLength, s.blockSize);
    if hops >= |s.chain| then Err(LengthNotSupported)       // the walk runs off the chain
    else if newEnd > s.chain[hops].end then Err(LengthNotSupported)
    else Ok(s.(chain := Chains.Cut(s.chain, s.blockSize, hops, newEnd), cachedLength := newLength))
  }

  /** `PoolSize = n`. */
  function SetPoolSize(s: Stream, newSize: int): (r: Stream)
    requires Valid(s) && newSize >= 0
    ensures Valid(r) && PoolSize(r) == newSize
    ensures Pools.Stack(r.pool) == Pools.Stack(s.pool)[..Min(Pools.Occupancy(s.pool), newSize)]
    ensures r == s.(pool := r.pool)
  {
    s.(pool := Pools.Resize(s.pool, newSize))
  }
}

=== FILE: writes.dfy ===
/** The copy loop of `Write`: fill the tail, and while bytes remain link a
    block obtained from the pool (`_addNodeToTail`) and continue there. */
module Writes {
  import opened Blocks
  import Arith
  import Chains
  import Pools
  import Seqs

  /** What a write leaves of the chain and the pool. */
  datatype Grown = Grown(chain: seq<Block>, pool: Pools.Pool)

  /** Whether `n` is the least number of new blocks that hold `count` more
      bytes behind a tail with `space` free bytes. */
  predicate FewestBlocks(space: int, count: int, blockSize: int, n: int) {
    && count <= space + n * blockSize
    && (n > 0 ==> count > space + (n - 1) * blockSize)
  }

  /** The number of blocks linked while writing `count` bytes behind a tail
      with `space` free bytes: none if they fit, else one more than for the
      rest behind a fresh block. */
  function NewBlocks(space: int, count: int, blockSize: int): nat
    requires blockSize > 0 && 0 <= space
    decreases count - space
  {
    if count <= space then 0 else 1 + NewBlocks(blockSize, count - space, blockSize)
  }

  /** `NewBlocks` is the least number of blocks that make room. */
  lemma {:induction false} NewBlocksFewest(space: int, count: int, blockSize: int, n: int)
    requires blockSize > 0 && 0 <= space && n == NewBlocks(space, count, blockSize)
    ensures FewestBlocks(space, count, blockSize, n)
    decreases count - space
  {
    if count > space {
      var m := NewBlocks(blockSize, count - space, blockSize);
      NewBlocksFewest(blockSize, count - space, blockSize, m);
      Arith.MulSucc(m, blockSize);
    }
  }

  /** Appends `src` to the chain, keeping every block but the tail as it
      was, and takes one block from the pool for every block it links. A
      tail that is exactly filled stays the tail until a later write needs
      room. */
  function Grow(chain: seq<Block>, pool: Pools.Pool, blockSize: nat, src: seq<byte>): (r: Grown)
    requires blockSize > 0 && Chains.WellFormed(chain, blockSize) && Pools.Valid(pool, blockSize)
    ensures Chains.WellFormed(r.chain, blockSize) && Pools.Valid(r.pool, blockSize)
    ensures Chains.Contents(r.chain) == Chains.Contents(chain) + src
    ensures |r.chain| >= |chain| && r.pool == Pools.Take(pool, blockSize, |r.chain| - |chain|)
    ensures r.chain[..|chain| - 1] == chain[..|chain| - 1] && r.chain[0].start == chain[0].start
    decreases |src|, if Chains.Tail(chain).end == blockSize then 1 else 0, 1
  {
    if |src| == 0 then Grown(chain, pool)
    else if blockSize - Chains.Tail(chain).end < |src| then GrowLinked(chain, pool, blockSize, src)
    else Grown(Chains.FillTail(chain, blockSize, src), pool)
  }

  /** The round of `Grow` that fills the tail and links a new one. */
  function GrowLinked(chain: seq<Block>, pool: Pools.Pool, blockSize: nat, src: seq<byte>): (r: Grown)
    requires blockSize > 0 && Chains.WellFormed(chain, blockSize) && Pools.Valid(pool, blockSize)
    requires blockSize - Chains.Tail(chain).end < |src|
    ensures Chains.WellFormed(r.chain, blockSize) && Pools.Valid(r.pool, blockSize)
    ensures Chains.Contents(r.chain) == Chains.Contents(chain) + src
    ensures |r.chain| >= |chain| && r.pool == Pools.Take(pool, blockSize, |r.chain| - |chain|)
    ensures r.chain[..|chain| - 1] == chain[..|chain| - 1] && r.chain[0].start == chain[0].start
    decreases |src|, if Chains.Tail(chain).end == blockSize then 1 else 0, 0
  {
    var chunk := blockSize - Chains.Tail(chain).end;
    var acquired := Pools.Acquire(pool, blockSize);
    var linked := Chains.FillAndLink(chain, blockSize, src[..chunk], acquired.1);
    var r := Grow(linked, acquired.0, blockSize, src[chunk..]);
    LinkedThenGrown(pool, blockSize, acquired.0, r.pool, src, chunk, Chains.Contents(chain),
                    Chains.Contents(linked), Chains.Contents(r.chain), chain, linked, r.chain);
    r
  }

  /** The promises of `GrowLinked` follow from those of the round that links
      a block and of the `Grow` that writes the rest; `before`, `filled` and
      `after` stand for the contents of `chain`, `linked` and `grown`. */
  lemma LinkedThenGrown(pool: Pools.Pool, blockSize: nat, remaining: Pools.Pool, grownPool: Pools.Pool,
                        src: seq<byte>, chunk: int, before: seq<byte>, filled: seq<byte>, after: seq<byte>,
                        chain: seq<Block>, linked: seq<Block>, grown: seq<Block>)
    requires Pools.Valid(pool, blockSize) && remaining == Pools.Acquire(pool, blockSize).0
    requires 0 <= chunk <= |src| && filled == before + src[..chunk] && after == filled + src[chunk..]
    requires 1 <= |chain| && |linked| == |chain| + 1
    requires linked[..|chain| - 1] == chain[..|chain| - 1] && linked[0].start == chain[0].start
    requires |grown| >= |linked| && grownPool == Pools.Take(remaining, blockSize, |grown| - |linked|)
    requires grown[..|linked| - 1] == linked[..|linked| - 1] && grown[0].start == linked[0].start
    ensures after == before + src
    ensures |grown| >= |chain| && grownPool == Pools.Take(pool, blockSize, |grown| - |chain|)
    ensures grown[..|chain| - 1] == chain[..|chain| - 1] && grown[0].start == chain[0].start
  {
    Seqs.Rejoin(before, src, chunk);
    Seqs.PrefixOfPrefix(grown, linked, |chain|, |chain| - 1);
    Pools.TakeFirst(pool, blockSize, |grown| - |chain|);
  }

  /** `Grow` links one block per further `blockSize` bytes that do not fit
      into the tail. */
  lemma {:induction false} GrowCounts(chain: seq<Block>, pool: Pools.Pool, blockSize: nat, src: seq<byte>)
    requires blockSize > 0 && Chains.WellFormed(chain, blockSize) && Pools.Valid(pool, blockSize)
    ensures var r := Grow(chain, pool, blockSize, src);
      |r.chain| - |chain| == NewBlocks(blockSize - Chains.Tail(chain).end, |src|, blockSize)
    decreases |src|, if Chains.Tail(chain).end == blockSize then 1 else 0, 1
  {
    if blockSize - Chains.Tail(chain).end < |src| {
      LinkedCounts(chain, pool, blockSize, src);
    } else {
      FitCounts(chain, pool, blockSize, src);
    }
  }

  /** `GrowCounts` for a write that links a block. */
  lemma {:induction false} LinkedCounts(chain: seq<Block>, pool: Pools.Pool, blockSize: nat, src: seq<byte>)
    requires blockSize > 0 && Chains.WellFormed(chain, blockSize) && Pools.Valid(pool, blockSize)
    requires blockSize - Chains.Tail(chain).end < |src|
    ensures var r := Grow(chain, pool, blockSize, src);
      |r.chain| - |chain| == NewBlocks(blockSize - Chains.Tail(chain).end, |src|, blockSize)
    decreases |src|, if Chains.Tail(chain).end == blockSize then 1 else 0, 0
  {
    var linked, remaining, rest := LinkRound(chain, pool, blockSize, src);
    GrowCounts(linked, remaining, blockSize, rest);
    CountStep(|chain|, |linked|, |Grow(chain, pool, blockSize, src).chain|,
      |Grow(linked, remaining, blockSize, rest).chain|,
      blockSize - Chains.Tail(chain).end, |src|, blockSize, blockSize - Chains.Tail(linked).end, |rest|);
  }

  /** A write that fits into the tail links no block. */
  lemma FitCounts(chain: seq<Block>, pool: Pools.Pool, blockSize: nat, src: seq<byte>)
    requires blockSize > 0 && Chains.WellFormed(chain, blockSize) && Pools.Valid(pool, blockSize)
    requires |src| <= blockSize - Chains.Tail(chain).end
    ensures |Grow(chain, pool, blockSize, src).chain| == |chain|
    ensures NewBlocks(blockSize - Chains.Tail(chain).end, |src|, blockSize) == 0
  {
  }

  /** The round of `GrowLinked`: the tail is filled and one empty block
      linked behind it, and the `rest` is written behind that block, from
      the `remaining` pool. */
  lemma LinkRound(chain: seq<Block>, pool: Pools.Pool, blockSize: nat, src: seq<byte>)
      returns (linked: seq<Block>, remaining: Pools.Pool, rest: seq<byte>)
    requires blockSize > 0 && Chains.WellFormed(chain, blockSize) && Pools.Valid(pool, blockSize)
    requires blockSize - Chains.Tail(chain).end < |src|
    ensures Chains.WellFormed(linked, blockSize) && Pools.Valid(remaining, blockSize)
    ensures |linked| == |chain| + 1 && Chains.Tail(linked).end == 0
    ensures |rest| < |src| || (|rest| == |src| && Chains.Tail(chain).end == blockSize)
    ensures 0 <= blockSize - Chains.Tail(chain).end && |rest| == |src| - (blockSize - Chains.Tail(chain).end)
    ensures |Grow(chain, pool, blockSize, src).chain| == |Grow(linked, remaining, blockSize, rest).chain|
  {
    var chunk := blockSize - Chains.Tail(chain).end;
    var acquired := Pools.Acquire(pool, blockSize);
    linked := Chains.FillAndLink(chain, blockSize, src[..chunk], acquired.1);
    remaining := acquired.0;
    rest := src[chunk..];
    assert Grow(chain, pool, blockSize, src) == GrowLinked(chain, pool, blockSize, src);
  }

  /** One linked block, counted in front of the rest: a write of `count`
      bytes behind `space` free bytes that ends as long as the write of the
      `rest` behind one more, empty block links one block more than that
      write. */
  lemma CountStep(before: int, linked: int, grown: int, grownLinked: int,
                  space: int, count: int, blockSize: int, linkedSpace: int, rest: int)
    requires blockSize > 0 && 0 <= space < count
    requires linked == before + 1 && grown == grownLinked
    requires linkedSpace == blockSize && rest == count - space
    requires grownLinked - linked == NewBlocks(linkedSpace, rest, blockSize)
    ensures grown - before == NewBlocks(space, count, blockSize)
  {
  }
}
